=== FILE: README.md ===
# contour, modelled in Dafny

This project models the core of `contour`, a Go template engine. The engine
loads the template files under a directory into one named template set and
renders a template by name, optionally inside a layout template. While it
renders, it holds a per-engine store of flash messages and drains it after
each render. The model covers four parts:

- **The flash store** (`flash.dfy`, module `Flashes`). The class `Flash` holds
  a map from category to messages. `PushTo` and `Push` append, `Get` and `All`
  are destructive reads, and `Clear` empties the map. `All` is a loop over the
  categories. It is proved to return the categories' messages in some
  enumeration order, which the model does not fix, with each category kept
  contiguous and in push order. Its length is proved to equal the total number
  of messages.
- **The load state** (`config.dfy`, module `Reloading`). The two flags are
  `loaded` and `reload`, and the derived `ShouldReload` decides whether a render
  loads.
- **The template helpers** (`funcs.dfy`, module `Helpers`). `Plural` renders
  the count as Go's `%d` would, proved to read back, followed by the chosen
  word. `inArray` searches a slice. `AllFuncs` gives the helpers' names.
- **The engine** (`paths.dfy`, `loader.dfy`, `contour.dfy`).
  - `Paths` covers the part of `path/filepath` that naming uses.
  - `Loader` covers the walk callback's decision for each entry (`Visit`) and
    the template set a whole walk builds (`Walk`).
  - `Contour` holds the engine's value `EngineState`, the functions `LoadSpec`
    and `RenderSpec` that say what `Load` and `Render` do to it, and the class
    `Engine`. The class's methods update fields step by step, as the Go methods
    do, and are proved to agree with those functions.

The file system, the template parser and the template executor are
parameters:

- The walk is the sequence of calls the directory walk makes to the loader's
  callback (`Loader.Entry`): an access error, an entry without metadata, a
  directory, or a file with the outcome of reading it.
- Parsing is a function from the names in the set's function map and the
  template text to an optional complaint (`Contour.TemplateParser`). The
  `Funcs` call that precedes every `Parse` (contour.go:112) is why the names
  matter: `text/template` rejects a call of an unknown function at parse time.
  This is why `New` registers a stub under the layout key, and why callers
  register their helpers before the first load. `Loader` sees the parser
  already bound to those names (`Loader.Parser`).
- Execution is a function from the job (a body alone, or a layout around a
  body) to an optional execution error (`Contour.Executor`).

A template set is modelled as a map from name to source text.
`setFuncs` is the function map bound to the compiled set. `Load` copies the
engine's function map into it. A layout render binds the layout key in it to a
hook that runs the body. In `text/template`, functions added with `Funcs` to
one template of a set are shared by the whole set, so that binding stays until
the next load.

Three behaviours of the code are easy to miss:

- `Load` (contour.go:111-112) replaces the template set before it walks. After
  a failed walk, the partially built set is the engine's set, and the previous
  set is gone. A failed load does not keep the previous set.
- The flash store is cleared by a `defer` placed after the body lookup
  (contour.go:184). A render that fails to load, or that does not find its
  template, leaves the flash store untouched. Only a render that finds its body
  template drains it, whether it then succeeds or fails.
- A first load that fails still sets `loaded` (contour.go:153). Without reload,
  later renders use the partial set and do not load again.

## Model

| member | source | states |
|---|---|---|
| Flashes.Flash.constructor | flash.go:9-11 | a new store holds no categories |
| Flashes.Flash.PushTo | flash.go:14-16 | the category becomes its old messages (none if absent) followed by the new one; every other category is unchanged |
| Flashes.Flash.Push | flash.go:19-21 | the same as `PushTo` on category "info" |
| Flashes.Flash.Get | flash.go:24-30 | returns the category's messages (empty if absent); afterwards the category is absent and the others are unchanged |
| Flashes.GetTwice | flash.go:24-30 | a second `Get` of the same category with no push in between returns nothing |
| Flashes.Flash.Clear | flash.go:33-35 | the store holds no categories |
| Flashes.Flash.All | flash.go:38-47 | returns the concatenation of all categories along an enumeration of the categories, with length the total number of messages; afterwards the store is empty |
| Flashes.ConcatLength | flash.go:38-47 | for any enumeration of the categories, the result of `All` has as many messages as the store holds in total |
| Flashes.ConcatContiguous | flash.go:40-42 | each category's messages appear in the result of `All` as one block, in push order, between the categories enumerated before and after it |
| Flashes.AllEmptyIffNoCategories | flash.go:38-47 | as long as every category holds a message, `All` returns nothing exactly when the store has no categories |
| Flashes.Flash.Messages | flash.go:25 | the zero-value lookup `f.msgs[key]`: a present category's messages; under the store's invariant, empty exactly when the category is absent |
| Flashes.Concat | flash.go:39-42 | the messages `All` gathers along a category order; for one category, exactly its messages |
| Flashes.ConcatEmptyIff | flash.go:39-42 | the gathered messages are empty exactly when every listed category is empty |
| Flashes.TotalCountRemove | flash.go:40-42 | the total number of messages does not depend on which category is counted first |
| Reloading.ShouldReload | config.go:8-10 | true whenever reload is on, true whenever the engine is not loaded, and false exactly when it is loaded with reload off |
| Helpers.AllFuncs | funcs.go:19-31 | registers exactly the nine helper names, with "plural", "in_array" and "now" bound to their helpers, and neither "body" nor "flash" |
| Helpers.Decimal | funcs.go:58 | the `%d` rendering is non-empty, starts with a minus sign exactly for a negative number, and has no leading zero |
| Helpers.DecimalRoundTrip | funcs.go:58 | the `%d` rendering of any integer reads back as that integer and contains no space |
| Helpers.PluralWord | funcs.go:50-56 | zero form when the count is 0 and a zero form is given; singular when the count is 1; plural when the count is not 1, a plural is given and the zero case does not apply; singular when no plural is given and the zero case does not apply |
| Helpers.Plural | funcs.go:49-59 | the result is the `%d` rendering of the count, one space, and the chosen word, and it reads back as that count and word |
| Helpers.InArrayAsWritten | funcs.go:33-46 | panics exactly when the haystack is nil; otherwise true exactly when the haystack is a slice with an element equal to the needle |
| Helpers.InArrayNilPanics | funcs.go:34 | a nil haystack makes the helper panic |
| Helpers.InArray | funcs.go:33-46 | searches up to the first equal element: true exactly when the haystack is a slice holding the needle, false for any non-slice, and the same answer as the code wherever the code does not panic |
| Paths.Ext | contour.go:125 | the extension is a suffix of the path that starts with a dot, has no separator and no further dot, and is empty only when no dot follows the last separator |
| Paths.Clean | contour.go:130 | `filepath.Clean` on the paths a walk produces: never empty, never starting with a "./" element, and the identity on a path already in that form |
| Paths.Rel | contour.go:130-133 | both paths cleaned; the same path gives "."; otherwise a relative path other than "." follows the cleaned base's prefix (nothing for base ".") to spell the cleaned target |
| Paths.Join | contour.go:155-163 | the path the walk hands the callback for `r` below the root: `r` itself below a root that cleans to ".", otherwise a path that starts with the cleaned root and ends with `r` right after a separator |
| Paths.RelOfJoin | contour.go:130-133 | the walk's path `Join(dir, r)` for a clean relative `r` is clean, and its relative path is `r` again, for roots such as ".", "./views", "views/" and "/" alike |
| Paths.ToSlash | contour.go:135 | separators become `/`; on a host whose separator is `/` the path is unchanged |
| Paths.TrimSuffix | contour.go:136 | a present suffix is removed, so that the result followed by the suffix is the input; otherwise the input is unchanged |
| Paths.RelKeepsExt | contour.go:125-136 | the extension of a walked path lies inside its relative path |
| Loader.TemplateName | contour.go:130-136 | fails exactly when `Rel` fails; otherwise the relative path without the extension when it ends with it, and unchanged when it does not |
| Loader.Visit | contour.go:114-150 | a walk error stops the walk with that error; only an error or a file with the configured extension can stop it; only such a file is added; and such a file is never skipped |
| Loader.WalkFrom | contour.go:114-163 | the walk keeps every template it started from |
| Loader.Walk | contour.go:155-163 | the walk succeeds exactly when no entry's callback stops it, and its error is the one such an entry returned |
| Loader.VisitNamesJoinedFile | contour.go:125-147 | a readable, parsing file with the configured extension, at `Join(dir, r)`, is added under `r` without its extension, with its text |
| Loader.VisitAddsOnlyMatchingFiles | contour.go:114-150 | a template is added only for a file whose extension is exactly the configured one and whose text parses; its name followed by the extension gives back its relative path |
| Loader.VisitSkips | contour.go:119-127 | directories, entries without metadata and files with another extension add nothing |
| Loader.FileBelowRootName | contour.go:125-136 | the file the walk reaches at `Join(dir, r)` has `r`'s extension and is named `r` without it, and that name followed by the extension is `r` again, however the root is spelled |
| Loader.WalkFromSources | contour.go:142-147 | each template of a walk either was defined before the walk or was added, with the source read, by an entry the walk visited |
| Loader.WalkSound | contour.go:114-163 | every template of a load came from a walk entry the callback added, with that entry's source |
| Loader.WalkFromComplete | contour.go:114-163 | a walk that ends without error went through every entry without stopping and kept every template it added |
| Loader.WalkFromStopsAtFirstError | contour.go:137-147 | a failing walk returns the error of the first entry that failed, and its templates are exactly those of the entries before it |
| Loader.WalkIgnoresAfterError | contour.go:137-147 | entries after the first error cannot change the walk's outcome |
| Contour.Message | contour.go:173-191 | a load error's text passes through unchanged, as `Render` returns `Load`'s error; a failed lookup's text is "render: template not found: " or "render: layout not found: " followed by the missing name |
| Contour.NotFoundMessageInjective | contour.go:178-191 | a failed lookup's text tells whether the body or the layout was missing, and which name |
| Contour.LoadSpec | contour.go:103-164 | a load always leaves the engine loaded, keeps the function map, layout key, reload flag and flash store, and can fail only when it was not loaded |
| Contour.LoadForRender | contour.go:168-176 | the load step of a render: nothing when the policy says no; with reload on, the set rebuilt from the current files; the engine loaded afterwards either way, with its functions, layout key and flash store kept |
| Contour.HasLayout | contour.go:187 | a layout is given only by a non-empty first variadic argument; no argument, or an empty one, means none |
| Contour.RenderSpec | contour.go:167-210 | after a render the engine is loaded, its reload flag, function map and layout key are kept, the flash store is either kept or emptied, the templates are exactly those the load step left, and a load error is possible only when the policy loaded |
| Contour.LoadSeesOnlyFuncNames | contour.go:111-112 | two engines that register the same function names load the same set and error, whatever the callables |
| Contour.LoadWhenLoadedIsNoOp | contour.go:104-106 | a load once loaded succeeds and changes nothing |
| Contour.LoadFromUnloaded | contour.go:108-163 | a load from not-loaded sets `loaded` whether or not the walk fails, installs the walk's templates, even a partial set, binds the set to the current function map, and returns the walk's error |
| Contour.LoadIdempotent | contour.go:103-106 | a second load is a no-op whatever the files say by then |
| Contour.LoadedSetMatchesFiles | contour.go:114-163 | after a successful load, every file with the configured extension has a template under its name, and every template came from such a file |
| Contour.LoadStopsAtFirstError | contour.go:137-147 | a failed load returns the first failing entry's error and holds exactly the templates of the entries before it |
| Contour.RenderWithReloadRebuilds | contour.go:168-176 | with reload on, a render resets `loaded` and reloads from the current files, and returns a load error exactly when the walk fails |
| Contour.RenderWhenLoadedDoesNotLoad | contour.go:168-180 | with reload off and the engine loaded, a render does not load, and the flags and templates stay |
| Contour.RenderLoadErrorComesFirst | contour.go:173-175 | when the load runs and fails, its error is the render's error and the flash store is untouched |
| Contour.RenderUnknownTemplate | contour.go:168-181 | on every render, first and reloading ones included: a name missing from the set the load step left fails with "render: template not found: name", with that state and the flash store untouched |
| Contour.RenderUnknownLayout | contour.go:168-191 | on every render: a body found but a layout missing from the set the load step left fails with "layout not found", clears the flash store, and executes nothing |
| Contour.RenderWithoutLayoutExecutesBody | contour.go:168-209 | on every render that finds its body with no layout given, or an empty first layout argument: the body alone is executed, its outcome is the result, and the flash store is emptied in the loaded state |
| Contour.RenderDrainsFlashOnceBodyFound | contour.go:178-184 | a render drains the flash store exactly when the body template was found, and leaves it as it was otherwise |
| Contour.RenderLayoutBindsHook | contour.go:168-206 | on every render that reaches the layout: the new state is the loaded state with the layout key bound to the body's hook and the flash store emptied, the result is the layout execution's outcome, and without reload the binding survives the next render |
| Contour.FailedFirstLoadIsSticky | contour.go:152-153 | after a first load fails without reload, the next render does not load again and uses the partial set |
| Contour.ReloadSeesEdits | contour.go:168-176 | with reload on, a second render sees the files as they are at that render |
| Contour.LibraryKeepsDefaults | contour.go:93-100 | merging the package helpers into a new engine keeps the layout stub and the flash helper and adds the nine helper names |
| Contour.Engine.constructor | contour.go:36-59 | a new engine is not loaded, has reload off and layout key "body", has an empty flash store and no templates, and registers exactly "body" and "flash" (`DefaultFuncs`: the layout stub of contour.go:46-48 and the flash helper of contour.go:50-56) |
| Contour.Engine.FromFS | contour.go:62-66 | the same as `New` rooted at "/", reading through the injected file system |
| Contour.Engine.Layout | contour.go:69-72 | only the layout key changes |
| Contour.Engine.Reload | contour.go:77-80 | only the reload flag changes |
| Contour.Engine.AddFunc | contour.go:84-89 | the name maps to the new callable, overwriting any earlier one; every other name is unchanged |
| Contour.Engine.AddFuncMap | contour.go:93-100 | the map becomes the old map overridden by the given one: its names take its callables and other names keep theirs |
| Contour.Engine.Load | contour.go:103-164 | the engine's new state and the returned error are those `LoadSpec` gives: a no-op once loaded, otherwise `loaded` set, a fresh set bound to the function map, and one template per entry up to the first error |
| Contour.Engine.Render | contour.go:167-210 | the engine's new state and the returned error are those `RenderSpec` gives: reload, then template lookup, then flash clear on every later path, then layout lookup, then execution |
| Contour.Engine.FlashHelper | contour.go:50-56 | with a category, that category's messages, read destructively; without one, all messages, read destructively, leaving the store empty |

## Left out

- Template parsing and execution (`text/template`) are parameters. Parse success is a function from the registered function names and the text to an optional error. The parser's own built-in functions are its concern. Execution is a function from the job to an optional error. The output written to the sink is not modelled. Neither is the body's error text that the hook hands back to the layout (contour.go:196-204). Nested `{{define}}` templates, and the rule that an empty template does not replace an existing one, are not modelled either.
- The file system (`filepath.Walk`, `http.FileSystem`, `stat`, `walk`, `readFile`) is not modelled. A walk is given as the sequence of callback calls it makes, with each read's outcome, and these files are not part of this model.
- Paths.Clean: only leading "./" elements, one trailing separator and the empty path are cleaned. Doubled separators, inner "." elements and ".." elements are not. The walk never produces them from a root without them. Roots such as ".", "./views" and "views/" are covered. A root written with "//", "/./" or ".." is not.
- Paths.Join: models `filepath.Join(dir, r)` for a clean relative `r` only, which is the shape in which the walk reports the paths it visits.
- The host's separator is `/`, so `ToSlash` changes nothing. Windows separators are not modelled.
- Paths.Rel: a target outside the base gives an error here, where Go returns a `../` path. The walk only reaches targets under the root.
- Locking (`sync.RWMutex`) is not modelled. It only matters for concurrent callers, and every operation here runs alone.
- Template execution may call the flash helper and read the store, but the executor is a pure parameter here. The model therefore captures only the clear that follows execution, not reads made during it.
- `Now` is not modelled, because it reads the wall clock.
- The string helpers registered by `AllFuncs` are named only. They are thin wrappers over `strings` functions.
- Helpers.InArray: equality is structural equality over the `Value` datatype, which holds booleans, integers, strings, slices and arrays. It stands in for `reflect.DeepEqual` on arbitrary Go values. Maps, pointers, functions and floating-point values, including NaN, are left out.
- Go's `int` is 64 bits wide. `Plural`'s count is an unbounded integer, which changes nothing because the count is only formatted.
- The order in which `All` visits categories follows Go's map iteration. It is unspecified, and the model does not fix it.

## Findings

| source | as written | input that shows it | evidently intended | confidence | as-written member | corrected member |
|---|---|---|---|---|---|---|
| funcs.go:34 | `reflect.TypeOf(haystack).Kind()` is called on a nil `reflect.Type` when the haystack is the nil interface, and panics | `in_array "x" nil`, or a missing map key passed as the haystack | false for every non-slice, nil included | high; not executed | Helpers.InArrayNilPanics | Helpers.InArray |

=== FILE: config.dfy ===
/** The engine's load state: whether a load has run and whether every render reloads. */
module Reloading {

  /** Go's `config`: `loaded` is set by a load, `reload` by the operator. */
  datatype Config = Config(loaded: bool, reload: bool)

  /** Whether `Render` must run a load before looking templates up. */
  predicate ShouldReload(c: Config)
    ensures c.reload ==> ShouldReload(c)
    ensures !c.loaded ==> ShouldReload(c)
    ensures !ShouldReload(c) <==> c.loaded && !c.reload
  {
    !c.loaded || c.reload
  }
}

=== FILE: contour.dfy ===
/**
 * The template engine: its function namespace, its load/reload policy, the
 * compiled template set, and the render protocol that looks a template up,
 * optionally wraps it in a layout, and drains the flash store.
 *
 * `EngineState` is the engine's value; `LoadSpec` and `RenderSpec` say what
 * `Load` and `Render` do to it, and the class `Engine` below carries out the
 * same steps on fields, proved to match them.
 */
module Contour {
  import opened Outcomes
  import opened Reloading
  import opened Flashes
  import opened Helpers
  import opened Loader
  import opened Paths

  /** The name under which a layout embeds the body template. */
  const LayoutKey: string := "body"

  /** The name of the built-in flash helper. */
  const FlashKey: string := "flash"

  /**
   * The callables a function map holds: the stub registered under the layout
   * key, the flash helper, the hook a layout render binds (it executes the
   * named body template), a helper of the package, or one of the caller's.
   */
  datatype Func =
    | IncludeStub
    | FlashFunc
    | LayoutHook(body: string)
    | Library(helper: Helper)
    | Custom(id: nat)

  /** The function map a new engine starts with. */
  function DefaultFuncs(): map<string, Func>
  {
    map[LayoutKey := IncludeStub, FlashKey := FlashFunc]
  }

  /** The package's helpers, as a function map a caller may merge in. */
  function LibraryFuncs(): map<string, Func>
  {
    map name | name in AllFuncs() :: Library(AllFuncs()[name])
  }

  /**
   * The template parser: given the names of the functions the set knows and
   * a template's text, `None` when it parses, or the complaint. A call of a
   * name the set does not know is rejected at parse time, which is why `New`
   * registers a stub under the layout key.
   */
  type TemplateParser = (set<string>, string) -> Option<string>

  /** The parser of a set whose function map holds `names`. */
  function BoundParser(parse: TemplateParser, names: set<string>): Parser
  {
    text => parse(names, text)
  }

  /** What the template executor is asked to run: a body alone, or a layout around a body (by source). */
  datatype Job = Plain(body: string) | Wrapped(layout: string, body: string)

  /** The template executor: `None` on success, or the execution error. */
  type Executor = Job -> Option<string>

  /** Why a render failed. */
  datatype RenderError =
    | LoadFailed(cause: LoadError)
    | TemplateNotFound(name: string)
    | LayoutNotFound(name: string)
    | ExecFailed(msg: string)

  /** What a failed body lookup's text starts with. */
  const TemplateNotFoundPrefix: string := "render: template not found: "

  /** What a failed layout lookup's text starts with. */
  const LayoutNotFoundPrefix: string := "render: layout not found: "

  /**
   * The text of a render error: a load or execution error's own text, passed
   * through unchanged; a failed lookup's prefix followed by the missing name.
   */
  function Message(e: RenderError): (r: string)
    ensures e.LoadFailed? ==> r == e.cause.msg
    ensures e.ExecFailed? ==> r == e.msg
    ensures e.TemplateNotFound? ==>
      (|r| >= |TemplateNotFoundPrefix| && r[..|TemplateNotFoundPrefix|] == TemplateNotFoundPrefix && r[|TemplateNotFoundPrefix|..] == e.name)
    ensures e.LayoutNotFound? ==>
      (|r| >= |LayoutNotFoundPrefix| && r[..|LayoutNotFoundPrefix|] == LayoutNotFoundPrefix && r[|LayoutNotFoundPrefix|..] == e.name)
  {
    match e
    case LoadFailed(WalkError(_, msg)) => msg
    case LoadFailed(RelError(msg)) => msg
    case LoadFailed(ReadFailed(_, msg)) => msg
    case LoadFailed(ParseError(_, msg)) => msg
    case TemplateNotFound(name) => TemplateNotFoundPrefix + name
    case LayoutNotFound(name) => LayoutNotFoundPrefix + name
    case ExecFailed(msg) => msg
  }

  /** A failed lookup's text tells whether the body or the layout was missing, and which name. */
  lemma {:induction false} NotFoundMessageInjective(e1: RenderError, e2: RenderError)
    requires e1.TemplateNotFound? || e1.LayoutNotFound?
    requires e2.TemplateNotFound? || e2.LayoutNotFound?
    requires Message(e1) == Message(e2)
    ensures e1 == e2
  {
    var m := Message(e1);
    assert m[8] == if e1.TemplateNotFound? then 't' else 'l';
    assert Message(e2)[8] == if e2.TemplateNotFound? then 't' else 'l';
    var p := if e1.TemplateNotFound? then TemplateNotFoundPrefix else LayoutNotFoundPrefix;
    assert e1.name == m[|p|..] == e2.name;
  }

  function ExecOutcome(r: Option<string>): Option<RenderError>
  {
    match r
    case None => None
    case Some(msg) => Some(ExecFailed(msg))
  }

  /**
   * The engine's mutable state: load flags, layout key, function map, the
   * compiled templates (name to source) with the functions bound to that
   * set, and the flash messages.
   */
  datatype EngineState = EngineState(
    cfg: Config,
    layout: string,
    funcMap: map<string, Func>,
    templates: map<string, string>,
    setFuncs: map<string, Func>,
    flash: map<string, seq<string>>)

  /**
   * `Load`: nothing once loaded; otherwise a fresh set bound to the current
   * function map, `loaded` set before the walk, and the walk's templates and
   * error, partial set included.
   */
  function LoadSpec(s: EngineState, dir: string, ext: string, parse: TemplateParser, files: seq<Entry>): (r: (EngineState, Option<LoadError>))
    ensures r.0.cfg == s.cfg.(loaded := true)
    ensures r.0.funcMap == s.funcMap && r.0.layout == s.layout && r.0.flash == s.flash
    ensures r.1.Some? ==> !s.cfg.loaded
  {
    if s.cfg.loaded then (s, None)
    else
      var w := Walk(dir, ext, BoundParser(parse, s.funcMap.Keys), files);
      (s.(cfg := s.cfg.(loaded := true), templates := w.templates, setFuncs := s.funcMap), w.err)
  }

  /** Whether `Render` was given a layout: a first variadic argument that is not empty. */
  predicate HasLayout(layouts: seq<string>)
    ensures HasLayout(layouts) ==> |layouts| > 0 && layouts[0] != ""
    ensures layouts == [] || layouts[0] == "" ==> !HasLayout(layouts)
  {
    |layouts| > 0 && layouts[0] != ""
  }

  /**
   * `Render`: reload when the policy says so (forcing it when reload is on),
   * fail on a load error, fail on a missing template, then clear the flash
   * store whatever follows: fail on a missing layout, or execute the body
   * alone or inside the layout with the hook bound.
   */
  function RenderSpec(s: EngineState, dir: string, ext: string, parse: TemplateParser, files: seq<Entry>,
                      execute: Executor, name: string, layouts: seq<string>): (r: (EngineState, Option<RenderError>))
    ensures r.0.cfg == s.cfg.(loaded := true)
    ensures r.0.funcMap == s.funcMap && r.0.layout == s.layout
    ensures r.0.flash == s.flash || r.0.flash == map[]
    ensures r.1.Some? && r.1.value.LoadFailed? ==> ShouldReload(s.cfg)
    ensures r.0.templates == LoadForRender(s, dir, ext, parse, files).0.templates
  {
    var loaded := LoadForRender(s, dir, ext, parse, files);
    var s1 := loaded.0;
    if loaded.1.Some? then (s1, Some(LoadFailed(loaded.1.value)))
    else if name !in s1.templates then (s1, Some(TemplateNotFound(name)))
    else if HasLayout(layouts) then
      if layouts[0] !in s1.templates then (s1.(flash := map[]), Some(LayoutNotFound(layouts[0])))
      else
        var r := execute(Wrapped(s1.templates[layouts[0]], s1.templates[name]));
        (s1.(setFuncs := s1.setFuncs[s1.layout := LayoutHook(name)], flash := map[]), ExecOutcome(r))
    else
      var r := execute(Plain(s1.templates[name]));
      (s1.(flash := map[]), ExecOutcome(r))
  }

  /**
   * The first step of `Render`: when the policy says so, load (from scratch
   * when reload is on); otherwise keep the state as it is.
   */
  function LoadForRender(s: EngineState, dir: string, ext: string, parse: TemplateParser, files: seq<Entry>): (r: (EngineState, Option<LoadError>))
    ensures !ShouldReload(s.cfg) ==> r == (s, None)
    ensures s.cfg.reload ==> r.0.templates == Walk(dir, ext, BoundParser(parse, s.funcMap.Keys), files).templates
    ensures r.0.cfg == s.cfg.(loaded := true)
    ensures r.0.funcMap == s.funcMap && r.0.layout == s.layout && r.0.flash == s.flash
  {
    if ShouldReload(s.cfg) then
      LoadSpec(if s.cfg.reload then s.(cfg := s.cfg.(loaded := false)) else s, dir, ext, parse, files)
    else (s, None)
  }

  // ---------------------------------------------------------------------------
  // Properties of loading

  /** A load once loaded succeeds and changes nothing. */
  lemma LoadWhenLoadedIsNoOp(s: EngineState, dir: string, ext: string, parse: TemplateParser, files: seq<Entry>)
    requires s.cfg.loaded
    ensures LoadSpec(s, dir, ext, parse, files) == (s, None)
  {
  }

  /**
   * A load from not-loaded marks the engine loaded whether or not the walk
   * fails, installs the walk's templates (a partial set on failure) bound to
   * the current function map, and returns the walk's error.
   */
  lemma LoadFromUnloaded(s: EngineState, dir: string, ext: string, parse: TemplateParser, files: seq<Entry>)
    requires !s.cfg.loaded
    ensures var (s', err) := LoadSpec(s, dir, ext, parse, files);
      && s'.cfg == Config(true, s.cfg.reload)
      && s'.templates == Walk(dir, ext, BoundParser(parse, s.funcMap.Keys), files).templates
      && err == Walk(dir, ext, BoundParser(parse, s.funcMap.Keys), files).err
      && s'.setFuncs == s.funcMap
      && s'.funcMap == s.funcMap && s'.layout == s.layout && s'.flash == s.flash
  {
  }

  /**
   * Parsing sees the function map only through its names: two engines that
   * register the same names, whatever the callables, load the same set.
   */
  lemma LoadSeesOnlyFuncNames(s: EngineState, t: EngineState, dir: string, ext: string, parse: TemplateParser, files: seq<Entry>)
    requires !s.cfg.loaded && !t.cfg.loaded && s.funcMap.Keys == t.funcMap.Keys
    ensures LoadSpec(s, dir, ext, parse, files).0.templates == LoadSpec(t, dir, ext, parse, files).0.templates
    ensures LoadSpec(s, dir, ext, parse, files).1 == LoadSpec(t, dir, ext, parse, files).1
  {
  }

  /** Loading twice compiles once: the second load, whatever the files say then, is a no-op. */
  lemma LoadIdempotent(s: EngineState, dir: string, ext: string, parse: TemplateParser, files: seq<Entry>, later: seq<Entry>)
    ensures var s' := LoadSpec(s, dir, ext, parse, files).0;
      LoadSpec(s', dir, ext, parse, later) == (s', None)
  {
  }

  /**
   * After a successful load every file with the configured extension is in
   * the set under its name, and every template in the set came from such a
   * file with the source that was read.
   */
  lemma LoadedSetMatchesFiles(s: EngineState, dir: string, ext: string, parse: TemplateParser, files: seq<Entry>)
    requires !s.cfg.loaded
    requires LoadSpec(s, dir, ext, parse, files).1 == None
    ensures var t := LoadSpec(s, dir, ext, parse, files).0.templates;
      && (forall i :: 0 <= i < |files| && Visit(dir, ext, BoundParser(parse, s.funcMap.Keys), files[i]).Add? ==> Visit(dir, ext, BoundParser(parse, s.funcMap.Keys), files[i]).name in t)
      && (forall i :: 0 <= i < |files| && files[i].File? && Ext(files[i].path) == ext ==> Visit(dir, ext, BoundParser(parse, s.funcMap.Keys), files[i]).Add?)
      && (forall n :: n in t ==> exists i :: 0 <= i < |files| && Visit(dir, ext, BoundParser(parse, s.funcMap.Keys), files[i]) == Add(n, t[n]))
  {
    var p := BoundParser(parse, s.funcMap.Keys);
    var t := LoadSpec(s, dir, ext, parse, files).0.templates;
    assert t == Walk(dir, ext, p, files).templates;
    WalkFromComplete(dir, ext, p, map[], files);
    forall n | n in t
      ensures exists i :: 0 <= i < |files| && Visit(dir, ext, p, files[i]) == Add(n, t[n])
    {
      WalkSound(dir, ext, p, files, n);
    }
  }

  /**
   * A load that fails returns the error of the first entry that failed; the
   * set it leaves holds exactly what the entries before that one defined.
   */
  lemma LoadStopsAtFirstError(s: EngineState, dir: string, ext: string, parse: TemplateParser, files: seq<Entry>)
    requires !s.cfg.loaded
    requires LoadSpec(s, dir, ext, parse, files).1.Some?
    ensures var (s', err) := LoadSpec(s, dir, ext, parse, files);
      exists i :: 0 <= i < |files| && Visit(dir, ext, BoundParser(parse, s.funcMap.Keys), files[i]) == Stop(err.value)
        && Walk(dir, ext, BoundParser(parse, s.funcMap.Keys), files[..i]) == Walked(s'.templates, None)
  {
    WalkFromStopsAtFirstError(dir, ext, BoundParser(parse, s.funcMap.Keys), map[], files);
  }

  // ---------------------------------------------------------------------------
  // Properties of rendering

  /** With reload on, a render reloads from the files as they are now, even when loaded. */
  lemma RenderWithReloadRebuilds(s: EngineState, dir: string, ext: string, parse: TemplateParser, files: seq<Entry>,
                                 execute: Executor, name: string, layouts: seq<string>)
    requires s.cfg.reload
    ensures var (s', err) := RenderSpec(s, dir, ext, parse, files, execute, name, layouts);
      && s'.cfg == Config(true, true)
      && s'.templates == Walk(dir, ext, BoundParser(parse, s.funcMap.Keys), files).templates
      && (Walk(dir, ext, BoundParser(parse, s.funcMap.Keys), files).err.Some? <==> err.Some? && err.value.LoadFailed?)
  {
  }

  /** With reload off and the engine loaded, a render does not load: the set, its functions and the flags stay. */
  lemma RenderWhenLoadedDoesNotLoad(s: EngineState, dir: string, ext: string, parse: TemplateParser, files: seq<Entry>,
                                    execute: Executor, name: string, layouts: seq<string>)
    requires s.cfg.loaded && !s.cfg.reload
    ensures var (s', err) := RenderSpec(s, dir, ext, parse, files, execute, name, layouts);
      && s'.cfg == s.cfg && s'.templates == s.templates
      && !(err.Some? && err.value.LoadFailed?)
      && (name !in s.templates ==> err == Some(TemplateNotFound(name)))
  {
  }

  /** A load error ends the render before any lookup: it is the render's error and the flash store is untouched. */
  lemma RenderLoadErrorComesFirst(s: EngineState, dir: string, ext: string, parse: TemplateParser, files: seq<Entry>,
                                  execute: Executor, name: string, layouts: seq<string>)
    requires ShouldReload(s.cfg) && Walk(dir, ext, BoundParser(parse, s.funcMap.Keys), files).err.Some?
    ensures var (s', err) := RenderSpec(s, dir, ext, parse, files, execute, name, layouts);
      && err == Some(LoadFailed(Walk(dir, ext, BoundParser(parse, s.funcMap.Keys), files).err.value))
      && s'.flash == s.flash
      && s'.cfg.loaded
  {
  }

  /**
   * An unknown template name fails with "template not found", whether the
   * render loaded first or not: the name is looked up in the set as the load
   * step left it, and the flash store is left as it was.
   */
  lemma RenderUnknownTemplate(s: EngineState, dir: string, ext: string, parse: TemplateParser, files: seq<Entry>,
                              execute: Executor, name: string, layouts: seq<string>)
    requires var (s1, e) := LoadForRender(s, dir, ext, parse, files); e == None && name !in s1.templates
    ensures var s1 := LoadForRender(s, dir, ext, parse, files).0;
      && RenderSpec(s, dir, ext, parse, files, execute, name, layouts) == (s1, Some(TemplateNotFound(name)))
      && s1.flash == s.flash
  {
  }

  /**
   * Without a layout (none given, or an empty first argument), a render that
   * finds its body executes the body alone, returns that execution's outcome
   * and clears the flash store.
   */
  lemma RenderWithoutLayoutExecutesBody(s: EngineState, dir: string, ext: string, parse: TemplateParser,
                                        files: seq<Entry>, execute: Executor, name: string, layouts: seq<string>)
    requires var (s1, e) := LoadForRender(s, dir, ext, parse, files);
      e == None && name in s1.templates && !HasLayout(layouts)
    ensures var s1 := LoadForRender(s, dir, ext, parse, files).0;
      RenderSpec(s, dir, ext, parse, files, execute, name, layouts)
        == (s1.(flash := map[]), ExecOutcome(execute(Plain(s1.templates[name]))))
  {
  }

  /**
   * An unknown layout fails with "layout not found", after the body was
   * found in the set as the load step left it, so the flash store is
   * cleared; the executor is never asked.
   */
  lemma RenderUnknownLayout(s: EngineState, dir: string, ext: string, parse: TemplateParser, files: seq<Entry>,
                            execute: Executor, name: string, layouts: seq<string>)
    requires var (s1, e) := LoadForRender(s, dir, ext, parse, files);
      e == None && name in s1.templates && HasLayout(layouts) && layouts[0] !in s1.templates
    ensures RenderSpec(s, dir, ext, parse, files, execute, name, layouts)
      == (LoadForRender(s, dir, ext, parse, files).0.(flash := map[]), Some(LayoutNotFound(layouts[0])))
  {
  }

  /**
   * The flash store is drained by a render exactly when the body template
   * is found, whatever the layout or the executor then do; otherwise it is
   * left as it was.
   */
  lemma RenderDrainsFlashOnceBodyFound(s: EngineState, dir: string, ext: string, parse: TemplateParser, files: seq<Entry>,
                                       execute: Executor, name: string, layouts: seq<string>)
    ensures var (s', err) := RenderSpec(s, dir, ext, parse, files, execute, name, layouts);
      && (err != Some(TemplateNotFound(name)) && !(err.Some? && err.value.LoadFailed?) ==> s'.flash == map[])
      && (err == Some(TemplateNotFound(name)) || (err.Some? && err.value.LoadFailed?) ==> s'.flash == s.flash)
  {
  }

  /**
   * A layout render that reaches execution binds the layout key, in the
   * template set's functions, to a hook that runs the body, and returns what
   * executing the layout around the body returns; without reload, the
   * binding stays for the renders that follow.
   */
  lemma RenderLayoutBindsHook(s: EngineState, dir: string, ext: string, parse: TemplateParser, files: seq<Entry>,
                              execute: Executor, name: string, layouts: seq<string>,
                              name2: string, execute2: Executor)
    requires var (s1, e) := LoadForRender(s, dir, ext, parse, files);
      e == None && name in s1.templates && HasLayout(layouts) && layouts[0] in s1.templates
    ensures var s1 := LoadForRender(s, dir, ext, parse, files).0;
      var (s', err) := RenderSpec(s, dir, ext, parse, files, execute, name, layouts);
      && s' == s1.(setFuncs := s1.setFuncs[s.layout := LayoutHook(name)], flash := map[])
      && err == ExecOutcome(execute(Wrapped(s1.templates[layouts[0]], s1.templates[name])))
      && (!s.cfg.reload ==> RenderSpec(s', dir, ext, parse, files, execute2, name2, []).0.setFuncs[s.layout] == LayoutHook(name))
  {
  }

  /**
   * A first load that fails is not retried without reload: the next render,
   * whatever the files say by then, looks names up in the partial set.
   */
  lemma FailedFirstLoadIsSticky(s: EngineState, dir: string, ext: string, parse: TemplateParser, files: seq<Entry>, later: seq<Entry>,
                                execute: Executor, name: string, layouts: seq<string>)
    requires !s.cfg.loaded && !s.cfg.reload && Walk(dir, ext, BoundParser(parse, s.funcMap.Keys), files).err.Some?
    ensures var s1 := RenderSpec(s, dir, ext, parse, files, execute, name, layouts).0;
      && s1.cfg.loaded
      && RenderSpec(s1, dir, ext, parse, later, execute, name, layouts).0.templates == Walk(dir, ext, BoundParser(parse, s.funcMap.Keys), files).templates
  {
    var s1 := RenderSpec(s, dir, ext, parse, files, execute, name, layouts).0;
    assert LoadForRender(s, dir, ext, parse, files).0.templates == Walk(dir, ext, BoundParser(parse, s.funcMap.Keys), files).templates;
    assert LoadForRender(s1, dir, ext, parse, later) == (s1, None);
  }

  /** With reload on, a second render sees the files as edited since the first. */
  lemma ReloadSeesEdits(s: EngineState, dir: string, ext: string, parse: TemplateParser, before: seq<Entry>, after: seq<Entry>,
                        execute: Executor, name: string, layouts: seq<string>)
    requires s.cfg.reload
    ensures var s1 := RenderSpec(s, dir, ext, parse, before, execute, name, layouts).0;
      RenderSpec(s1, dir, ext, parse, after, execute, name, layouts).0.templates == Walk(dir, ext, BoundParser(parse, s.funcMap.Keys), after).templates
  {
    RenderWithReloadRebuilds(s, dir, ext, parse, before, execute, name, layouts);
    var s1 := RenderSpec(s, dir, ext, parse, before, execute, name, layouts).0;
    RenderWithReloadRebuilds(s1, dir, ext, parse, after, execute, name, layouts);
  }

  /** Merging the package helpers into a new engine's map keeps the two built-ins and adds nine names. */
  lemma LibraryKeepsDefaults()
    ensures (DefaultFuncs() + LibraryFuncs())[LayoutKey] == IncludeStub
    ensures (DefaultFuncs() + LibraryFuncs())[FlashKey] == FlashFunc
    ensures (DefaultFuncs() + LibraryFuncs()).Keys == {LayoutKey, FlashKey} + AllFuncs().Keys
  {
  }

  // ---------------------------------------------------------------------------
  // The engine object

  /** Go's `Engine`. `virtualFS` records whether files come from an injected file system. */
  class Engine {
    var cfg: Config
    const dir: string
    const ext: string
    const virtualFS: bool
    var layout: string
    var funcMap: map<string, Func>
    const flashes: Flash
    var templates: map<string, string>
    var setFuncs: map<string, Func>

    ghost predicate Valid()
      reads this, flashes
    {
      flashes.Valid()
    }

    /** The engine's current value. */
    function State(): EngineState
      reads this, flashes
    {
      EngineState(cfg, layout, funcMap, templates, setFuncs, flashes.msgs)
    }

    /**
     * `New`: not loaded, reload off, layout key "body", an empty flash store,
     * no templates, and exactly the stub and the flash helper registered.
     */
    constructor (dir: string, ext: string)
      ensures Valid() && fresh(flashes)
      ensures this.dir == dir && this.ext == ext && !virtualFS
      ensures State() == EngineState(Config(false, false), LayoutKey, DefaultFuncs(), map[], map[], map[])
      ensures funcMap.Keys == {"body", "flash"}
    {
      this.dir := dir;
      this.ext := ext;
      virtualFS := false;
      cfg := Config(false, false);
      layout := LayoutKey;
      funcMap := map[];
      flashes := new Flash();
      templates := map[];
      setFuncs := map[];
      new;
      AddFunc(layout, IncludeStub);
      AddFunc(FlashKey, FlashFunc);
    }

    /** `NewFS`: as `New` rooted at "/", reading through an injected file system. */
    constructor FromFS(ext: string)
      ensures Valid() && fresh(flashes)
      ensures dir == "/" && this.ext == ext && virtualFS
      ensures State() == EngineState(Config(false, false), LayoutKey, DefaultFuncs(), map[], map[], map[])
    {
      dir := "/";
      this.ext := ext;
      virtualFS := true;
      cfg := Config(false, false);
      layout := LayoutKey;
      funcMap := map[];
      flashes := new Flash();
      templates := map[];
      setFuncs := map[];
      new;
      AddFunc(layout, IncludeStub);
      AddFunc(FlashKey, FlashFunc);
    }

    /** Sets the name under which layouts embed the body; nothing else changes. */
    method Layout(key: string)
      modifies this
      ensures State() == old(State()).(layout := key)
    {
      layout := key;
    }

    /** Turns reload-on-every-render on or off; nothing else changes. */
    method Reload(enabled: bool)
      modifies this
      ensures State() == old(State()).(cfg := old(cfg).(reload := enabled))
    {
      cfg := cfg.(reload := enabled);
    }

    /** Registers `fn` under `name`, replacing any earlier entry; every other name keeps its entry. */
    method AddFunc(name: string, fn: Func)
      modifies this
      ensures State() == old(State()).(funcMap := old(funcMap)[name := fn])
      ensures forall n :: n != name ==> (n in funcMap <==> n in old(funcMap))
      ensures forall n :: n != name && n in funcMap ==> funcMap[n] == old(funcMap)[n]
    {
      funcMap := funcMap[name := fn];
    }

    /** Registers every entry of `m`: its names take `m`'s callables, other names keep theirs. */
    method AddFuncMap(m: map<string, Func>)
      modifies this
      ensures State() == old(State()).(funcMap := old(funcMap) + m)
      ensures forall n :: n in m ==> n in funcMap && funcMap[n] == m[n]
      ensures forall n :: n !in m ==> (n in funcMap <==> n in old(funcMap))
      ensures forall n :: n !in m && n in funcMap ==> funcMap[n] == old(funcMap)[n]
    {
      var rest := m.Keys;
      while rest != {}
        invariant rest <= m.Keys
        invariant funcMap == old(funcMap) + map n | n in m && n !in rest :: m[n]
        invariant cfg == old(cfg) && layout == old(layout) && templates == old(templates) && setFuncs == old(setFuncs)
        decreases rest
      {
        var n :| n in rest;
        funcMap := funcMap[n := m[n]];
        rest := rest - {n};
      }
      assert (map n | n in m && n !in rest :: m[n]) == m;
    }

    /**
     * Compiles the templates under `dir`: a no-op once loaded; otherwise marks
     * the engine loaded, starts a fresh set bound to the function map, and
     * adds one template per walk entry until the first error.
     */
    method Load(parse: TemplateParser, files: seq<Entry>) returns (err: Option<LoadError>)
      modifies this
      ensures (State(), err) == LoadSpec(old(State()), dir, ext, parse, files)
    {
      if cfg.loaded {
        return None;
      }
      var bound := BoundParser(parse, funcMap.Keys);
      templates := map[];
      setFuncs := funcMap;
      cfg := cfg.(loaded := true);
      var i := 0;
      while i < |files|
        invariant 0 <= i <= |files|
        invariant WalkFrom(dir, ext, bound, templates, files[i..]) == Walk(dir, ext, bound, files)
        invariant bound == BoundParser(parse, old(funcMap).Keys)
        invariant cfg == old(cfg).(loaded := true) && setFuncs == old(funcMap)
        invariant funcMap == old(funcMap) && layout == old(layout)
      {
        assert files[i..][1..] == files[i + 1..];
        var step := Visit(dir, ext, bound, files[i]);
        if step.Stop? {
          return Some(step.err);
        }
        assert WalkFrom(dir, ext, bound, templates, files[i..])
          == WalkFrom(dir, ext, bound, Advance(templates, step), files[i + 1..]);
        if step.Add? {
          templates := templates[step.name := step.source];
        }
        i := i + 1;
      }
      return None;
    }

    /**
     * Renders template `name`, inside layout `layouts[0]` when one is given:
     * reloads as the policy says, looks the template up, and from then on
     * clears the flash store when it returns.
     */
    method Render(parse: TemplateParser, files: seq<Entry>, execute: Executor, name: string, layouts: seq<string>)
      returns (err: Option<RenderError>)
      requires Valid()
      modifies this, flashes
      ensures Valid()
      ensures (State(), err) == RenderSpec(old(State()), dir, ext, parse, files, execute, name, layouts)
    {
      if ShouldReload(cfg) {
        if cfg.reload {
          cfg := cfg.(loaded := false);
        }
        var loadErr := Load(parse, files);
        if loadErr.Some? {
          return Some(LoadFailed(loadErr.value));
        }
      }
      if name !in templates {
        return Some(TemplateNotFound(name));
      }
      if HasLayout(layouts) {
        if layouts[0] !in templates {
          flashes.Clear();
          return Some(LayoutNotFound(layouts[0]));
        }
        setFuncs := setFuncs[layout := LayoutHook(name)];
        var r := execute(Wrapped(templates[layouts[0]], templates[name]));
        flashes.Clear();
        return ExecOutcome(r);
      }
      var r := execute(Plain(templates[name]));
      flashes.Clear();
      return ExecOutcome(r);
    }

    /** The "flash" helper: the messages of `key` when given, otherwise all of them, read destructively. */
    method FlashHelper(key: string) returns (msgs: seq<string>, ghost order: seq<string>)
      requires Valid()
      modifies flashes
      ensures Valid()
      ensures |key| > 0 ==> msgs == old(flashes.Messages(key)) && flashes.msgs == old(flashes.msgs) - {key}
      ensures |key| == 0 ==> && IsEnumeration(order, old(flashes.msgs).Keys)
                             && msgs == Concat(old(flashes.msgs), order)
                             && flashes.msgs == map[]
    {
      if |key| > 0 {
        msgs := flashes.Get(key);
        order := [];
      } else {
        msgs, order := flashes.All();
      }
    }
  }
}

=== FILE: flash.dfy ===
/**
 * The flash message store: a map from category ("info", "error", ...) to the
 * messages pushed to it, in push order. Reads are destructive.
 */
module Flashes {

  /** The category `Push` uses. */
  const DefaultCategory: string := "info"

  /** True when `order` lists every key of `keys` exactly once. */
  ghost predicate IsEnumeration(order: seq<string>, keys: set<string>)
  {
    && (forall i, j :: 0 <= i < j < |order| ==> order[i] != order[j])
    && (forall k :: k in order <==> k in keys)
  }

  /** The messages of the categories listed in `order`, category after category. */
  function Concat(m: map<string, seq<string>>, order: seq<string>): (c: seq<string>)
    requires forall k :: k in order ==> k in m
    ensures |order| == 1 ==> c == m[order[0]]
  {
    if order == [] then [] else Concat(m, order[..|order| - 1]) + m[order[|order| - 1]]
  }

  /** The concatenation is empty exactly when every listed category is. */
  lemma {:induction false} ConcatEmptyIff(m: map<string, seq<string>>, order: seq<string>)
    requires forall k :: k in order ==> k in m
    ensures Concat(m, order) == [] <==> forall k :: k in order ==> m[k] == []
  {
    if order != [] {
      var init, last := order[..|order| - 1], order[|order| - 1];
      assert order == init + [last];
      ConcatEmptyIff(m, init);
    }
  }

  /** The number of messages held, summed over all categories. */
  ghost function TotalCount(m: map<string, seq<string>>): nat
    decreases |m|
  {
    if m == map[] then 0
    else
      var k :| k in m;
      assert |(m - {k}).Keys| < |m.Keys| by { assert (m - {k}).Keys == m.Keys - {k}; }
      |m[k]| + TotalCount(m - {k})
  }

  /** The sum does not depend on which category is taken out first. */
  lemma {:induction false} TotalCountRemove(m: map<string, seq<string>>, k: string)
    requires k in m
    ensures TotalCount(m) == |m[k]| + TotalCount(m - {k})
    decreases |m|
  {
    var j :| j in m && TotalCount(m) == |m[j]| + TotalCount(m - {j});
    if j != k {
      assert (m - {j}).Keys == m.Keys - {j};
      assert (m - {k}).Keys == m.Keys - {k};
      TotalCountRemove(m - {j}, k);
      TotalCountRemove(m - {k}, j);
      assert m - {j} - {k} == m - {k} - {j};
    }
  }

  /** Concatenating along `a + b` is concatenating along `a`, then along `b`. */
  lemma {:induction false} ConcatAppend(m: map<string, seq<string>>, a: seq<string>, b: seq<string>)
    requires forall k :: k in a ==> k in m
    requires forall k :: k in b ==> k in m
    ensures Concat(m, a + b) == Concat(m, a) + Concat(m, b)
  {
    if b == [] {
      assert a + b == a;
    } else {
      var b', last := b[..|b| - 1], b[|b| - 1];
      assert b == b' + [last];
      assert a + b == (a + b') + [last];
      assert (a + b)[..|a + b| - 1] == a + b';
      ConcatAppend(m, a, b');
      assert Concat(m, a + b) == Concat(m, a + b') + m[last];
    }
  }

  /**
   * In the result of `All`, the messages of each category stand together and
   * in push order: the category at position `i` of the enumeration is
   * preceded by the categories before it and followed by those after it.
   */
  lemma {:induction false} ConcatContiguous(m: map<string, seq<string>>, order: seq<string>, i: nat)
    requires forall k :: k in order ==> k in m
    requires i < |order|
    ensures Concat(m, order) == Concat(m, order[..i]) + m[order[i]] + Concat(m, order[i + 1..])
  {
    var before, after := order[..i], order[i + 1..];
    var here := [order[i]];
    assert order == before + (here + after);
    ConcatAppend(m, before, here + after);
    ConcatAppend(m, here, after);
    assert Concat(m, here) == m[order[i]] by {
      assert here[..0] == [];
    }
  }

  /** Concatenation along a duplicate-free list counts the messages of exactly those categories. */
  lemma {:induction false} ConcatCountsListed(m: map<string, seq<string>>, order: seq<string>)
    requires forall k :: k in order ==> k in m
    requires forall i, j :: 0 <= i < j < |order| ==> order[i] != order[j]
    ensures |Concat(m, order)| == TotalCount(map k | k in m && k in order :: m[k])
  {
    var r := map k | k in m && k in order :: m[k];
    if order == [] {
      assert r == map[];
    } else {
      var last := order[|order| - 1];
      var init := order[..|order| - 1];
      var r' := map k | k in m && k in init :: m[k];
      ConcatCountsListed(m, init);
      assert |Concat(m, order)| == |Concat(m, init)| + |m[last]|;
      assert last in r && r[last] == m[last];
      TotalCountRemove(r, last);
      RestrictDropLast(m, order);
      assert r - {last} == r';
    }
  }

  /** Restricting to `order` without its last, duplicate-free entry is removing that entry. */
  lemma RestrictDropLast(m: map<string, seq<string>>, order: seq<string>)
    requires forall k :: k in order ==> k in m
    requires forall i, j :: 0 <= i < j < |order| ==> order[i] != order[j]
    requires order != []
    ensures (map k | k in m && k in order :: m[k]) - {order[|order| - 1]}
      == map k | k in m && k in order[..|order| - 1] :: m[k]
  {
    var last := order[|order| - 1];
    var init := order[..|order| - 1];
    assert forall k :: k in order <==> k in init || k == last by {
      assert order == init + [last];
    }
  }

  /** `All` returns as many messages as the store holds, whatever the category order. */
  lemma ConcatLength(m: map<string, seq<string>>, order: seq<string>)
    requires IsEnumeration(order, m.Keys)
    ensures |Concat(m, order)| == TotalCount(m)
  {
    ConcatCountsListed(m, order);
    assert (map k | k in m && k in order :: m[k]) == m;
  }

  /** Under the store's invariant, `All` returns nothing exactly when the store is empty. */
  lemma AllEmptyIffNoCategories(m: map<string, seq<string>>, order: seq<string>)
    requires IsEnumeration(order, m.Keys)
    requires forall k :: k in m ==> m[k] != []
    ensures Concat(m, order) == [] <==> m == map[]
  {
    if m != map[] {
      var k :| k in m;
      assert k in order;
      ConcatContiguous(m, order, 0);
    } else {
      assert forall k :: k !in order;
    }
  }

  /** Go's `Flash`: category name to the messages pushed to it. */
  class Flash {
    var msgs: map<string, seq<string>>

    /** Every category present holds at least one message (only `PushTo` creates one). */
    ghost predicate Valid()
      reads this
    {
      forall k :: k in msgs ==> msgs[k] != []
    }

    /** The messages of `key`; the empty sequence for a missing category, as Go's zero value. */
    function Messages(key: string): (r: seq<string>)
      reads this
      ensures key in msgs ==> r == msgs[key]
      ensures Valid() ==> (r == [] <==> key !in msgs)
    {
      if key in msgs then msgs[key] else []
    }

    /** `NewFlash`: a store with no categories. */
    constructor ()
      ensures Valid()
      ensures msgs == map[]
    {
      msgs := map[];
    }

    /** Appends `msg` to category `key`, creating the category when absent. */
    method PushTo(key: string, msg: string)
      requires Valid()
      modifies this
      ensures Valid()
      ensures key in msgs && msgs[key] == old(Messages(key)) + [msg]
      ensures forall k :: k != key ==> (k in msgs <==> k in old(msgs))
      ensures forall k :: k != key && k in msgs ==> msgs[k] == old(msgs[k])
    {
      msgs := msgs[key := Messages(key) + [msg]];
    }

    /** `PushTo` on the default category. */
    method Push(msg: string)
      requires Valid()
      modifies this
      ensures Valid()
      ensures msgs == old(msgs)[DefaultCategory := old(Messages(DefaultCategory)) + [msg]]
    {
      PushTo(DefaultCategory, msg);
    }

    /** Returns the messages of `key` and removes the category; other categories stay. */
    method Get(key: string) returns (val: seq<string>)
      requires Valid()
      modifies this
      ensures Valid()
      ensures val == old(Messages(key))
      ensures key !in msgs && Messages(key) == []
      ensures msgs == old(msgs) - {key}
    {
      val := Messages(key);
      msgs := msgs - {key};
    }

    /** Removes every category. */
    method Clear()
      modifies this
      ensures Valid()
      ensures msgs == map[]
    {
      msgs := map[];
    }

    /**
     * Returns the messages of every category, one category after another in
     * an unspecified order (`order`, Go's map iteration order), and empties
     * the store.
     */
    method All() returns (all: seq<string>, ghost order: seq<string>)
      requires Valid()
      modifies this
      ensures Valid()
      ensures IsEnumeration(order, old(msgs).Keys)
      ensures all == Concat(old(msgs), order)
      ensures |all| == TotalCount(old(msgs))
      ensures msgs == map[]
    {
      all, order := [], [];
      var rest := msgs.Keys;
      while rest != {}
        invariant rest <= msgs.Keys
        invariant forall i, j :: 0 <= i < j < |order| ==> order[i] != order[j]
        invariant forall k :: k in order <==> k in msgs && k !in rest
        invariant all == Concat(msgs, order)
        decreases rest
      {
        var k :| k in rest;
        all := all + msgs[k];
        order := order + [k];
        rest := rest - {k};
      }
      ConcatLength(msgs, order);
      Clear();
    }
  }

  /** The scenario of `Get` twice in a row: the second read finds nothing. */
  method GetTwice(f: Flash, key: string) returns (first: seq<string>, second: seq<string>)
    requires f.Valid()
    modifies f
    ensures first == old(f.Messages(key)) && second == []
    ensures f.msgs == old(f.msgs) - {key}
  {
    first := f.Get(key);
    second := f.Get(key);
  }
}

=== FILE: funcs.dfy ===
/** The helper functions the package offers to templates. */
module Helpers {
  import opened Outcomes

  /** The names `AllFuncs` registers, each bound to the helper it names. */
  datatype Helper = Split | JoinHelper | Title | TrimSpace | Lower | Upper | PluralHelper | NowHelper | InArrayHelper

  /** `AllFuncs`: the function map of every helper of the package. */
  function AllFuncs(): (m: map<string, Helper>)
    ensures m.Keys == {"split", "join", "title", "trimspace", "lower", "upper", "plural", "now", "in_array"}
    ensures m["plural"] == PluralHelper && m["in_array"] == InArrayHelper && m["now"] == NowHelper
    ensures forall name :: name in m ==> name != "body" && name != "flash"
  {
    map["split" := Split, "join" := JoinHelper, "title" := Title, "trimspace" := TrimSpace,
        "lower" := Lower, "upper" := Upper, "plural" := PluralHelper, "now" := NowHelper,
        "in_array" := InArrayHelper]
  }

  // ---------------------------------------------------------------------------
  // Decimal rendering of integers, as Go's `%d` verb.

  predicate IsDigit(c: char) { '0' <= c <= '9' }

  predicate AllDigits(s: string) { forall i :: 0 <= i < |s| ==> IsDigit(s[i]) }

  function DigitChar(d: nat): (c: char)
    requires d < 10
    ensures IsDigit(c) && c as int - '0' as int == d
  {
    "0123456789"[d]
  }

  /** The digits of `n`, most significant first, with no leading zero. */
  function Digits(n: nat): (s: string)
    ensures |s| > 0 && AllDigits(s)
    ensures s[0] == '0' ==> n == 0
    decreases n
  {
    if n < 10 then [DigitChar(n)] else Digits(n / 10) + [DigitChar(n % 10)]
  }

  /** `%d`: a minus sign for a negative number, then the digits of its magnitude. */
  function Decimal(n: int): (r: string)
    ensures |r| > 0
    ensures r[0] == '-' <==> n < 0
    ensures n < 0 ==> |r| > 1 && r[1] != '0'
    ensures n >= 0 && |r| > 1 ==> r[0] != '0'
  {
    if n < 0 then ['-'] + Digits(-n) else Digits(n)
  }

  /** The value of a non-empty run of decimal digits. */
  function ParseDigits(s: string): nat
    requires |s| > 0 && AllDigits(s)
  {
    var d := s[|s| - 1] as int - '0' as int;
    if |s| == 1 then d else 10 * ParseDigits(s[..|s| - 1]) + d
  }

  /** Reads back what `Decimal` writes; `None` for anything else. */
  function ParseDecimal(s: string): Option<int>
  {
    if |s| > 0 && s[0] == '-' then
      (if |s| > 1 && AllDigits(s[1..]) then var m: int := ParseDigits(s[1..]); Some(-m) else None)
    else if |s| > 0 && AllDigits(s) then Some(ParseDigits(s))
    else None
  }

  lemma {:induction false} DigitsRoundTrip(n: nat)
    ensures ParseDigits(Digits(n)) == n
    decreases n
  {
    if n >= 10 {
      DigitsRoundTrip(n / 10);
      var s := Digits(n);
      assert s[..|s| - 1] == Digits(n / 10);
    }
  }

  /** `%d` loses nothing: the rendered text reads back as the number, and holds no space. */
  lemma DecimalRoundTrip(n: int)
    ensures ParseDecimal(Decimal(n)) == Some(n)
    ensures ' ' !in Decimal(n)
  {
    DecimalHasNoSpace(n);
    if n < 0 {
      var d := Digits(-n);
      DigitsRoundTrip(-n);
      MinusRoundTrip(n, d);
      assert Decimal(n) == ['-'] + d;
    } else {
      var s := Digits(n);
      DigitsRoundTrip(n);
      assert !IsDigit('-') && !IsDigit(' ');
      assert s[0] != '-';
    }
  }

  /** A minus sign followed by digits worth `-n` reads back as `n`. */
  lemma MinusRoundTrip(n: int, d: string)
    requires |d| > 0 && AllDigits(d) && ParseDigits(d) == -n
    ensures ParseDecimal(['-'] + d) == Some(n)
  {
    var s := ['-'] + d;
    assert s[1..] == d;
  }

  /** `%d` writes a minus sign and digits, never a space. */
  lemma DecimalHasNoSpace(n: int)
    ensures ' ' !in Decimal(n)
  {
    var digits := Digits(if n < 0 then -n else n);
    NoSpaceInDigits(digits);
    if n < 0 {
      var s := ['-'] + digits;
      assert Decimal(n) == s;
      forall i | 0 <= i < |s|
        ensures s[i] != ' '
      {
        if i > 0 {
          assert s[i] == digits[i - 1];
        }
      }
    }
  }

  /** A run of digits holds no space. */
  lemma NoSpaceInDigits(s: string)
    requires AllDigits(s)
    ensures ' ' !in s
  {
  }

  // ---------------------------------------------------------------------------
  // Plural

  /** The word `Plural` chooses for a count: `zero` for none, `plu` for several, `sin` otherwise. */
  function PluralWord(num: int, sin: string, plu: string, zero: string): (w: string)
    ensures num == 0 && zero != "" ==> w == zero
    ensures num == 1 ==> w == sin
    ensures num != 1 && plu != "" && !(num == 0 && zero != "") ==> w == plu
    ensures plu == "" && !(num == 0 && zero != "") ==> w == sin
    ensures w == sin || w == plu || w == zero
  {
    if num == 0 && zero != "" then zero
    else if num != 1 && plu != "" then plu
    else sin
  }

  /** Position of the first occurrence of `c` in `s`, or `|s|` when there is none. */
  function IndexOf(s: string, c: char): (i: nat)
    ensures i <= |s|
    ensures i < |s| ==> s[i] == c
    ensures forall j :: 0 <= j < i ==> s[j] != c
  {
    if s == [] then 0 else if s[0] == c then 0 else 1 + IndexOf(s[1..], c)
  }

  /** A prefix free of `c` is skipped whole by `IndexOf`. */
  lemma {:induction false} IndexOfAfterPrefix(p: string, rest: string, c: char)
    requires c !in p
    ensures IndexOf(p + rest, c) == |p| + IndexOf(rest, c)
  {
    if p != [] {
      assert (p + rest)[1..] == p[1..] + rest;
      IndexOfAfterPrefix(p[1..], rest, c);
    } else {
      assert p + rest == rest;
    }
  }

  /** Splits a `Plural` result back into the count and the word. */
  function ReadPlural(r: string): Option<(int, string)>
  {
    var i := IndexOf(r, ' ');
    if i == |r| then None
    else match ParseDecimal(r[..i])
      case None => None
      case Some(n) => Some((n, r[i + 1..]))
  }

  /**
   * `Plural`: the count in decimal, one space, then the chosen word. The
   * count and the word can be read back from the result.
   */
  function Plural(num: int, sin: string, plu: string, zero: string): (r: string)
    ensures r == Decimal(num) + " " + PluralWord(num, sin, plu, zero)
    ensures ReadPlural(r) == Some((num, PluralWord(num, sin, plu, zero)))
  {
    var d := Decimal(num);
    var r := d + " " + PluralWord(num, sin, plu, zero);
    DecimalRoundTrip(num);
    assert r == d + (" " + PluralWord(num, sin, plu, zero));
    IndexOfAfterPrefix(d, " " + PluralWord(num, sin, plu, zero), ' ');
    assert r[..|d|] == d;
    r
  }

  // ---------------------------------------------------------------------------
  // inArray

  /**
   * The dynamic values a template passes to a helper. `Nil` is Go's nil
   * interface; `Array` a fixed-size Go array, whose reflected kind is not a slice.
   */
  datatype Value =
    | Nil
    | Bool(b: bool)
    | Int(i: int)
    | Str(s: string)
    | Slice(items: seq<Value>)
    | Array(elems: seq<Value>)

  /** The outcome of a Go call that may panic. */
  datatype Call<T> = Returned(value: T) | Panicked(reason: string)

  /**
   * `inArray` as written: `reflect.TypeOf(nil)` is a nil `reflect.Type`, and
   * calling `Kind` on it panics, so a nil haystack does not yield false.
   */
  function InArrayAsWritten(needle: Value, haystack: Value): (r: Call<bool>)
    ensures r.Panicked? <==> haystack == Nil
    ensures r.Returned? ==> (r.value <==> haystack.Slice? && exists i :: 0 <= i < |haystack.items| && haystack.items[i] == needle)
  {
    match haystack
    case Nil => Panicked("runtime error: invalid memory address or nil pointer dereference")
    case Slice(items) => Returned(needle in items)
    case _ => Returned(false)
  }

  /** A nil haystack makes the helper panic instead of answering false. */
  lemma InArrayNilPanics()
    ensures InArrayAsWritten(Str("x"), Nil).Panicked?
  {
  }

  /**
   * `inArray` as intended: searches a slice for an element deeply equal to
   * the needle, stopping at the first; every other haystack, nil included,
   * gives false.
   */
  method InArray(needle: Value, haystack: Value) returns (found: bool)
    ensures found <==> haystack.Slice? && exists i :: 0 <= i < |haystack.items| && haystack.items[i] == needle
    ensures !haystack.Slice? ==> !found
    ensures haystack != Nil ==> InArrayAsWritten(needle, haystack) == Returned(found)
  {
    if haystack.Slice? {
      var s := haystack.items;
      for i := 0 to |s|
        invariant forall j :: 0 <= j < i ==> s[j] != needle
      {
        if s[i] == needle {
          return true;
        }
      }
    }
    return false;
  }
}

=== FILE: loader.dfy ===
/**
 * The decision `Load` takes for each entry of the template directory walk,
 * and the template set the whole walk builds.
 */
module Loader {
  import opened Outcomes
  import opened Paths

  /** The result of reading a file's contents. */
  datatype Read = Contents(text: string) | ReadError(msg: string)

  /**
   * One call the directory walk makes to the loader's callback, in walk order:
   * an access error, an entry without metadata, a directory, or a file
   * together with what reading it yields.
   */
  datatype Entry =
    | Failed(path: string, msg: string)
    | NoInfo(path: string)
    | Dir(path: string)
    | File(path: string, content: Read)

  /** Why a load stopped. */
  datatype LoadError =
    | WalkError(path: string, msg: string)
    | RelError(msg: string)
    | ReadFailed(path: string, msg: string)
    | ParseError(name: string, msg: string)

  /** What the callback does with one entry. */
  datatype Step = Skip | Add(name: string, source: string) | Stop(err: LoadError)

  /**
   * The parser of one template set: `None` when the text parses, or the
   * complaint (a syntax error, or a call of a function the set does not know).
   */
  type Parser = string -> Option<string>

  /** The templates a walk defined, by name, and the error that ended it, if any. */
  datatype Walked = Walked(templates: map<string, string>, err: Option<LoadError>)

  /** A template's name: its slash-separated path relative to `dir`, without the extension. */
  function TemplateName(dir: string, ext: string, path: string): (r: Result<string>)
    ensures r.Err? <==> Rel(dir, path).Err?
    ensures r.Ok? && IsSuffix(ext, Rel(dir, path).value) ==> r.value + ext == Rel(dir, path).value
    ensures r.Ok? && !IsSuffix(ext, Rel(dir, path).value) ==> r.value == Rel(dir, path).value
  {
    match Rel(dir, path)
    case Err(msg) => Err(msg)
    case Ok(rel) => Ok(TrimSuffix(ToSlash(rel), ext))
  }

  /** The walk callback: stop on an error, skip all but files with extension `ext`, parse the rest. */
  function Visit(dir: string, ext: string, parse: Parser, e: Entry): (r: Step)
    ensures e.Failed? ==> r == Stop(WalkError(e.path, e.msg))
    ensures r.Stop? ==> e.Failed? || (e.File? && Ext(e.path) == ext)
    ensures r.Add? ==> e.File? && Ext(e.path) == ext
    ensures e.File? && Ext(e.path) == ext ==> !r.Skip?
  {
    match e
    case Failed(path, msg) => Stop(WalkError(path, msg))
    case NoInfo(_) => Skip
    case Dir(_) => Skip
    case File(path, content) =>
      if Ext(path) != ext then Skip else VisitFile(parse, path, TemplateName(dir, ext, path), content)
  }

  /** The callback on a file with the configured extension, given the outcome of naming it: read it, parse it; never a skip. */
  function VisitFile(parse: Parser, path: string, named: Result<string>, content: Read): (r: Step)
    ensures !r.Skip?
  {
    match named
    case Err(msg) => Stop(RelError(msg))
    case Ok(name) =>
      match content
      case ReadError(msg) => Stop(ReadFailed(path, msg))
      case Contents(text) =>
        match parse(text)
        case Some(msg) => Stop(ParseError(name, msg))
        case None => Add(name, text)
  }

  /** The templates after a step that does not stop: one more for `Add`, the same for `Skip`. */
  function Advance(acc: map<string, string>, step: Step): map<string, string>
  {
    if step.Add? then acc[step.name := step.source] else acc
  }

  /** The walk from the templates `acc` already defined, through `entries`, stopping at the first error. */
  function WalkFrom(dir: string, ext: string, parse: Parser, acc: map<string, string>, entries: seq<Entry>): (w: Walked)
    ensures acc.Keys <= w.templates.Keys
    decreases |entries|
  {
    if entries == [] then Walked(acc, None)
    else
      var step := Visit(dir, ext, parse, entries[0]);
      if step.Stop? then Walked(acc, Some(step.err))
      else WalkFrom(dir, ext, parse, Advance(acc, step), entries[1..])
  }

  /** The walk of a fresh template set. */
  function Walk(dir: string, ext: string, parse: Parser, entries: seq<Entry>): (w: Walked)
    ensures w.err == None ==> forall i :: 0 <= i < |entries| ==> !Visit(dir, ext, parse, entries[i]).Stop?
    ensures w.err.Some? ==> exists i :: 0 <= i < |entries| && Visit(dir, ext, parse, entries[i]) == Stop(w.err.value)
  {
    var w := WalkFrom(dir, ext, parse, map[], entries);
    if w.err == None then
      WalkFromComplete(dir, ext, parse, map[], entries);
      w
    else
      WalkFromStopsAtFirstError(dir, ext, parse, map[], entries);
      w
  }

  /**
   * A template is added only for a file whose extension is exactly `ext` and
   * whose text parses, under its relative path with `ext` stripped: the name
   * followed by `ext` gives back the relative path (the root itself, "." when
   * the walk is started on a file, aside).
   */
  lemma VisitAddsOnlyMatchingFiles(dir: string, ext: string, parse: Parser, e: Entry)
    requires Visit(dir, ext, parse, e).Add?
    ensures e.File? && Ext(e.path) == ext
    ensures e.content == Contents(Visit(dir, ext, parse, e).source)
    ensures parse(Visit(dir, ext, parse, e).source) == None
    ensures Rel(dir, e.path).Ok?
    ensures Rel(dir, e.path).value == "." || Visit(dir, ext, parse, e).name + ext == Rel(dir, e.path).value
  {
    assert e.File? && Ext(e.path) == ext;
    var rel := Rel(dir, e.path).value;
    if rel != "." {
      RelKeepsExt(dir, e.path);
    }
  }

  /** A directory, an entry without metadata and a file with another extension add nothing. */
  lemma VisitSkips(dir: string, ext: string, parse: Parser, e: Entry)
    requires e.Dir? || e.NoInfo? || (e.File? && Ext(e.path) != ext)
    ensures Visit(dir, ext, parse, e) == Skip
  {
  }

  /**
   * Round-trip naming: the file the walk reaches at relative path `r` below
   * the root (at `filepath.Join(dir, r)`, whatever "./" or trailing separator
   * the root is spelled with) is named `r` without its extension, and that
   * name followed by the extension is `r` again.
   */
  lemma FileBelowRootName(dir: string, ext: string, r: string)
    requires IsCleanRel(r)
    ensures Ext(Join(dir, r)) == Ext(r)
    ensures TemplateName(dir, ext, Join(dir, r)) == Ok(TrimSuffix(r, ext))
    ensures Ext(r) == ext ==> TrimSuffix(r, ext) + ext == r
  {
    var prefix := ElemPrefix(dir);
    RelOfJoin(dir, r);
    if prefix == [] {
      assert Join(dir, r) == r;
    } else {
      ExtAfterSeparator(prefix, r);
    }
  }

  /** A readable, parsing file with the configured extension is added under its round-trip name. */
  lemma VisitNamesJoinedFile(dir: string, ext: string, parse: Parser, r: string, text: string)
    requires IsCleanRel(r) && Ext(r) == ext && parse(text) == None
    ensures Visit(dir, ext, parse, File(Join(dir, r), Contents(text))) == Add(TrimSuffix(r, ext), text)
  {
    var path := Join(dir, r);
    FileBelowRootName(dir, ext, r);
    VisitNamedFile(dir, ext, parse, path, TrimSuffix(r, ext), text);
  }

  /** A file with the configured extension, a name and a text that parses is added under that name. */
  lemma VisitNamedFile(dir: string, ext: string, parse: Parser, path: string, name: string, text: string)
    requires Ext(path) == ext && TemplateName(dir, ext, path) == Ok(name) && parse(text) == None
    ensures Visit(dir, ext, parse, File(path, Contents(text))) == Add(name, text)
  {
    var named := TemplateName(dir, ext, path);
    assert Visit(dir, ext, parse, File(path, Contents(text))) == VisitFile(parse, path, named, Contents(text));
    assert VisitFile(parse, path, Ok(name), Contents(text)) == Add(name, text);
  }

  /**
   * Every template of a finished walk was either in `acc` before it, or was
   * added, with that very source, by an entry the walk visited.
   */
  lemma {:induction false} WalkFromSources(dir: string, ext: string, parse: Parser, acc: map<string, string>, entries: seq<Entry>, name: string)
    requires name in WalkFrom(dir, ext, parse, acc, entries).templates
    ensures var t := WalkFrom(dir, ext, parse, acc, entries).templates;
      (name in acc && t[name] == acc[name])
      || exists i :: 0 <= i < |entries| && Visit(dir, ext, parse, entries[i]) == Add(name, t[name])
    decreases |entries|
  {
    if entries != [] {
      var t := WalkFrom(dir, ext, parse, acc, entries).templates;
      var step := Visit(dir, ext, parse, entries[0]);
      if !step.Stop? {
        var rest := entries[1..];
        var next := Advance(acc, step);
        assert t == WalkFrom(dir, ext, parse, next, rest).templates;
        WalkFromSources(dir, ext, parse, next, rest, name);
        if name in next && t[name] == next[name] {
          if !(name in acc && t[name] == acc[name]) {
            assert Visit(dir, ext, parse, entries[0]) == Add(name, t[name]);
          }
        } else {
          var i :| 0 <= i < |rest| && Visit(dir, ext, parse, rest[i]) == Add(name, t[name]);
          assert entries[i + 1] == rest[i];
          assert Visit(dir, ext, parse, entries[i + 1]) == Add(name, t[name]);
        }
      }
    }
  }

  /** A load defines templates only for entries `Visit` adds, each with the source it read. */
  lemma WalkSound(dir: string, ext: string, parse: Parser, entries: seq<Entry>, name: string)
    requires name in Walk(dir, ext, parse, entries).templates
    ensures exists i :: (0 <= i < |entries| &&
      Visit(dir, ext, parse, entries[i]) == Add(name, Walk(dir, ext, parse, entries).templates[name]))
  {
    WalkFromSources(dir, ext, parse, map[], entries, name);
  }

  /**
   * A walk that ends without error visited every entry without stopping and
   * kept everything it was given and everything it added.
   */
  lemma {:induction false} WalkFromComplete(dir: string, ext: string, parse: Parser, acc: map<string, string>, entries: seq<Entry>)
    requires WalkFrom(dir, ext, parse, acc, entries).err == None
    ensures forall i :: 0 <= i < |entries| ==> !Visit(dir, ext, parse, entries[i]).Stop?
    ensures forall i :: 0 <= i < |entries| && Visit(dir, ext, parse, entries[i]).Add? ==>
      Visit(dir, ext, parse, entries[i]).name in WalkFrom(dir, ext, parse, acc, entries).templates
    decreases |entries|
  {
    if entries != [] {
      var rest := entries[1..];
      var next := Advance(acc, Visit(dir, ext, parse, entries[0]));
      WalkFromComplete(dir, ext, parse, next, rest);
      forall i | 1 <= i < |entries|
        ensures Visit(dir, ext, parse, entries[i]) == Visit(dir, ext, parse, rest[i - 1])
      {
        assert entries[i] == rest[i - 1];
      }
    }
  }

  /**
   * A walk that fails stopped at an entry whose callback returned that very
   * error; its templates are exactly those of the entries before it, which
   * all went through without error, and nothing after it was added.
   */
  lemma {:induction false} WalkFromStopsAtFirstError(dir: string, ext: string, parse: Parser, acc: map<string, string>, entries: seq<Entry>)
    requires WalkFrom(dir, ext, parse, acc, entries).err.Some?
    ensures exists i :: (0 <= i < |entries|
      && Visit(dir, ext, parse, entries[i]) == Stop(WalkFrom(dir, ext, parse, acc, entries).err.value)
      && WalkFrom(dir, ext, parse, acc, entries[..i]) == Walked(WalkFrom(dir, ext, parse, acc, entries).templates, None))
    decreases |entries|
  {
    var w := WalkFrom(dir, ext, parse, acc, entries);
    var step := Visit(dir, ext, parse, entries[0]);
    if step.Stop? {
      assert entries[..0] == [];
    } else {
      var rest := entries[1..];
      var next := Advance(acc, step);
      assert w == WalkFrom(dir, ext, parse, next, rest);
      WalkFromStopsAtFirstError(dir, ext, parse, next, rest);
      var i :| 0 <= i < |rest| && Visit(dir, ext, parse, rest[i]) == Stop(w.err.value)
        && WalkFrom(dir, ext, parse, next, rest[..i]) == Walked(w.templates, None);
      WalkFromPrefix(dir, ext, parse, acc, entries, i + 1);
      assert entries[i + 1] == rest[i];
      assert Visit(dir, ext, parse, entries[i + 1]) == Stop(w.err.value);
      assert WalkFrom(dir, ext, parse, acc, entries[..i + 1]) == Walked(w.templates, None);
    }
  }

  /** A walk of a prefix that starts with a non-stopping entry is that step followed by the walk of the rest of the prefix. */
  lemma WalkFromPrefix(dir: string, ext: string, parse: Parser, acc: map<string, string>, entries: seq<Entry>, n: nat)
    requires 0 < n <= |entries|
    requires !Visit(dir, ext, parse, entries[0]).Stop?
    ensures WalkFrom(dir, ext, parse, acc, entries[..n])
      == WalkFrom(dir, ext, parse, Advance(acc, Visit(dir, ext, parse, entries[0])), entries[1..][..n - 1])
  {
    var before := entries[..n];
    assert before[0] == entries[0] && before[1..] == entries[1..][..n - 1];
  }

  /** The walk never looks past its first error: entries after it cannot change the outcome. */
  lemma {:induction false} WalkIgnoresAfterError(dir: string, ext: string, parse: Parser, acc: map<string, string>, entries: seq<Entry>, later: seq<Entry>)
    requires WalkFrom(dir, ext, parse, acc, entries).err.Some?
    ensures WalkFrom(dir, ext, parse, acc, entries + later) == WalkFrom(dir, ext, parse, acc, entries)
    decreases |entries|
  {
    assert (entries + later)[0] == entries[0];
    assert (entries + later)[1..] == entries[1..] + later;
    var step := Visit(dir, ext, parse, entries[0]);
    if !step.Stop? {
      WalkIgnoresAfterError(dir, ext, parse, Advance(acc, step), entries[1..], later);
    }
  }
}

=== FILE: outcomes.dfy ===
/** Small failure-carrying datatypes shared by the other modules. */
module Outcomes {

  datatype Option<T> = None | Some(value: T)

  /** A value or an error message, as Go's `(T, error)` pairs. */
  datatype Result<T> = Ok(value: T) | Err(msg: string)
}

=== FILE: paths.dfy ===
/**
 * The part of Go's `path/filepath` the loader relies on: `Ext`, `Rel`,
 * `ToSlash`, and `strings.TrimSuffix`. Paths are taken in `filepath.Clean`
 * form, on a host whose separator is `/`.
 */
module Paths {
  import opened Outcomes

  /** `filepath.Separator` on the host the model fixes. */
  const Separator: char := '/'

  predicate IsSuffix(suffix: string, s: string)
  {
    |suffix| <= |s| && s[|s| - |suffix|..] == suffix
  }

  /**
   * `filepath.Ext`: the suffix of the last path element that starts at its
   * last dot, or the empty string when that element has no dot.
   */
  function Ext(path: string): (e: string)
    ensures IsSuffix(e, path)
    ensures e == [] || e[0] == '.'
    ensures Separator !in e
    ensures e != [] ==> '.' !in e[1..]
    ensures e == [] ==> forall i :: 0 <= i < |path| && path[i] == '.' ==> Separator in path[i + 1..]
  {
    if path == [] then []
    else
      var last := path[|path| - 1];
      var init := path[..|path| - 1];
      if last == Separator then
        []
      else if last == '.' then "."
      else
        var e := Ext(init);
        if e == [] then
          []
        else
          assert (e + [last])[1..] == e[1..] + [last];
          e + [last]
  }

  /** A path that ends with a separator hides everything before it from `Ext`. */
  lemma {:induction false} ExtAfterSeparator(p: string, q: string)
    requires |p| > 0 && p[|p| - 1] == Separator
    ensures Ext(p + q) == Ext(q)
  {
    if q == [] {
      assert p + q == p;
    } else {
      assert (p + q)[..|p + q| - 1] == p + q[..|q| - 1];
      ExtAfterSeparator(p, q[..|q| - 1]);
    }
  }

  /** True when `p` starts with the element ".", followed by a separator. */
  predicate StartsWithDotSlash(p: string)
  {
    |p| >= 2 && p[0] == '.' && p[1] == Separator
  }

  /** `p` without its leading "./" elements. */
  function TrimDotSlash(p: string): (q: string)
    ensures !StartsWithDotSlash(q)
    ensures |q| <= |p|
    decreases |p|
  {
    if StartsWithDotSlash(p) then TrimDotSlash(p[2..]) else p
  }

  /** Dropping leading "./" elements keeps the extension. */
  lemma {:induction false} TrimDotSlashKeepsExt(p: string)
    ensures Ext(TrimDotSlash(p)) == Ext(p)
    decreases |p|
  {
    if StartsWithDotSlash(p) {
      var rest := p[2..];
      assert p == p[..2] + rest;
      ExtAfterSeparator(p[..2], rest);
      TrimDotSlashKeepsExt(rest);
    }
  }

  /**
   * `filepath.Clean` on the paths a walk rooted at a configured directory
   * produces: leading "./" elements are dropped, then a trailing separator
   * (except for the root "/"), and the empty path becomes ".".
   */
  function Clean(p: string): (c: string)
    ensures c != []
    ensures !StartsWithDotSlash(c)
    ensures !StartsWithDotSlash(p) && p != [] && p[|p| - 1] != Separator ==> c == p
  {
    var q := TrimDotSlash(p);
    if q == [] then "."
    else if |q| > 1 && q[|q| - 1] == Separator then
      var c := q[..|q| - 1];
      assert c[..1] == q[..1];
      c
    else q
  }

  /** Cleaning keeps the extension of a path that has one: only a trailing separator, which hides it, is dropped. */
  lemma CleanKeepsExt(p: string)
    ensures Ext(p) == [] || Ext(p) == Ext(Clean(p))
  {
    TrimDotSlashKeepsExt(p);
  }

  /** What `Rel` strips from a clean path below the clean `base`: `base` and one separator. */
  function DirPrefix(base: string): (d: string)
    ensures |d| > 0 && d[|d| - 1] == Separator
    ensures |d| >= |base| && d[..|base|] == base
  {
    if |base| > 0 && base[|base| - 1] == Separator then base else base + [Separator]
  }

  /** What stands before a relative path below `base` once both are clean: nothing below ".". */
  function ElemPrefix(base: string): (d: string)
    ensures d == [] || d[|d| - 1] == Separator
    ensures Clean(base) == "." ==> d == []
  {
    var b := Clean(base);
    if b == "." then [] else DirPrefix(b)
  }

  /**
   * `filepath.Join(base, r)` for a relative path `r` in clean form, as the
   * directory walk rooted at `base` spells the paths it visits.
   */
  function Join(base: string, r: string): (j: string)
    ensures |j| >= |r| && j[|j| - |r|..] == r
    ensures Clean(base) == "." ==> j == r
    ensures Clean(base) != "." ==>
      (|j| >= |Clean(base)| + |r| && j[..|Clean(base)|] == Clean(base) && j[|j| - |r| - 1] == Separator)
  {
    ElemPrefix(base) + r
  }

  /** A relative path in clean form: no separator at either end, and no empty, "." or ".." element. */
  predicate IsCleanRel(r: string)
  {
    && r != [] && r != "." && !StartsWithDotSlash(r)
    && r[0] != Separator && r[|r| - 1] != Separator
    && forall i :: 0 <= i < |r| && (i == 0 || r[i - 1] == Separator) ==> !EmptyOrDotElementAt(r, i)
  }

  /** The path element starting at `i` is empty, "." or "..". */
  predicate EmptyOrDotElementAt(r: string, i: nat)
    requires i < |r|
  {
    || r[i] == Separator
    || (r[i] == '.' && (i + 1 == |r| || r[i + 1] == Separator))
    || (r[i] == '.' && i + 1 < |r| && r[i + 1] == '.' && (i + 2 == |r| || r[i + 2] == Separator))
  }

  /**
   * `filepath.Rel` for a `target` at or below `base`: both are cleaned; the
   * same path gives "."; below the base "." the target is its own relative
   * path; otherwise it is what follows the base and its separator. A target
   * elsewhere is an error (Go would answer with a "../" path).
   */
  function Rel(base: string, target: string): (r: Result<string>)
    ensures Clean(target) == Clean(base) ==> r == Ok(".")
    ensures r.Ok? && r.value != "." ==> ElemPrefix(base) + r.value == Clean(target)
  {
    var t := Clean(target);
    if t == Clean(base) then Ok(".")
    else
      var prefix := ElemPrefix(base);
      if prefix == [] then
        if t[0] == Separator then Err(RelMessage(base, target)) else Ok(t)
      else if |prefix| < |t| && t[..|prefix|] == prefix then
        assert prefix + t[|prefix|..] == t;
        Ok(t[|prefix|..])
      else Err(RelMessage(base, target))
  }

  /** The error text of `filepath.Rel` for a target it cannot reach from `base`. */
  function RelMessage(base: string, target: string): string
  {
    "Rel: can't make " + target + " relative to " + base
  }

  /** The prefix the walk puts before a relative path does not start a "./" element. */
  lemma ElemPrefixShape(base: string)
    ensures !StartsWithDotSlash(ElemPrefix(base))
    ensures |ElemPrefix(base)| == 1 ==> ElemPrefix(base)[0] == Separator
  {
    var b := Clean(base);
    if b != "." && !(|b| > 0 && b[|b| - 1] == Separator) {
      var d := b + [Separator];
      if |b| >= 2 {
        assert d[..2] == b[..2];
      }
    }
  }

  /** The walk's path of `r` below `base` is clean, and its relative path is `r` again. */
  lemma RelOfJoin(base: string, r: string)
    requires IsCleanRel(r)
    ensures Clean(Join(base, r)) == Join(base, r)
    ensures Rel(base, Join(base, r)) == Ok(r)
  {
    var b := Clean(base);
    var path := Join(base, r);
    var pre := ElemPrefix(base);
    ElemPrefixShape(base);
    assert path[|path| - 1] == r[|r| - 1];
    if pre == [] {
      assert path == r;
    } else if |pre| == 1 {
      assert path[0] == Separator;
    } else {
      assert path[..2] == pre[..2];
    }
    assert Clean(path) == path;
    if b != "." {
      assert |pre| >= |b|;
      assert path[..|pre|] == pre;
      assert path[|pre|..] == r;
    }
  }

  /** `filepath.ToSlash`: every host separator becomes `/`; on this host the path itself. */
  function ToSlash(path: string): (r: string)
    ensures |r| == |path|
    ensures forall i :: 0 <= i < |path| ==> r[i] == if path[i] == Separator then '/' else path[i]
    ensures r == path
  {
    seq(|path|, i requires 0 <= i < |path| => if path[i] == Separator then '/' else path[i])
  }

  /** `strings.TrimSuffix`. */
  function TrimSuffix(s: string, suffix: string): (r: string)
    ensures IsSuffix(suffix, s) ==> r + suffix == s
    ensures !IsSuffix(suffix, s) ==> r == s
  {
    if IsSuffix(suffix, s) then
      assert s[..|s| - |suffix|] + s[|s| - |suffix|..] == s;
      s[..|s| - |suffix|]
    else s
  }

  /**
   * The extension of a path below `base` lies inside its relative path:
   * cleaning keeps the last element, and the relative path starts at an
   * element boundary.
   */
  lemma RelKeepsExt(base: string, target: string)
    requires Rel(base, target).Ok? && Rel(base, target).value != "."
    ensures IsSuffix(Ext(target), Rel(base, target).value)
  {
    var rel := Rel(base, target).value;
    var pre := ElemPrefix(base);
    CleanKeepsExt(target);
    if Ext(target) != [] {
      if pre != [] {
        ExtAfterSeparator(pre, rel);
      } else {
        assert pre + rel == rel;
      }
    }
  }
}
